=== FILE: README.md ===
# Scent recommender: prompt templating and reply recovery

A model of the two pieces of logic in the fragrance-recommendation web app
(`app.py`): the prompt built from the nine form fields
(`build_scent_prompt_gemini`), and the way `call_gemini` turns the language
model's reply into a `(data, error)` pair, together with how the
`/generate` handler turns that pair into a page.

Modules, one per component:

- `Wrappers` (`wrappers.dfy`): `Option`, standing for Python's value-or-`None`.
- `Strings` (`strings.dfy`): the predicate `Shows(p, o, s)` ("`p` holds `s`
  verbatim from offset `o` on") and facts about slicing concatenations,
  stated over arbitrary strings.
- `JsonValue` (`json_value.dfy`): decoded JSON values as Python holds them,
  Python truthiness and `dict.get`.
- `ScentPrompt` (`prompt.dfy`): the prompt as a concatenation of fixed
  pieces and the rendered field values. Each fact about it is proved in
  three steps: for the template's layout over arbitrary pieces (`Layout…`
  lemmas), for the template filled in from the fields and followed by any
  text (`…In` lemmas, about `PromptWith`), and for the prompt itself, whose
  trailing text is the fixed instructions. The lemmas locate each piece.
- `ReplyRecovery` (`recovery.dfy`): the walk over the decoded reply, the
  strict parse, the `\{.*\}` fallback and the flattening into `(data, error)`.
- `WebHandler` (`handler.dfy`): reading the form, the error page and the
  `scents` lookup of `generate`.

`json.loads` is the parameter `parse: string -> Option<Json>`, with `None`
for a decode error. Python's `str(e)` of a caught exception is the parameter
`str: Exc -> string`. The HTTP call followed by `resp.json()` is a
`Delivery` value: the decoded body, or the exception it raised. In
`Generate` that value comes from a parameter `send` applied to the prompt.
Every lemma about the reply holds for every parser, every exception text and
every transport outcome.

Four behaviours of the code are easy to misread, and the model keeps them
as written:

- A missing form field is rendered as the text `None` on its trait line. It
  is not omitted: `request.form.get` gives `None` for it (`app.py` lines
  110-118), and the f-string on lines 19-28 renders that as `None`.
- A brace match that does not parse makes `json.loads` raise inside the
  `except` branch. That exception reaches the outer handler, so the error
  is the exception's text (`Raised(DecodeError(m))`), not the fixed "AI
  returned invalid JSON" message (`app.py` lines 95 and 101-102).
- An exception whose text is empty is not a truthy error. `generate` then
  calls `.get` on `None` and raises (`EmptyExceptionTextRaises`).
- The error page embeds the error text and the prompt without HTML
  escaping (`app.py` line 126). The prompt carries the form fields
  verbatim, so a field holding markup reaches the page as markup
  (`ErrorHtml` together with `PromptShowsFormField`).

The lemmas about `generate`'s answer are stated for any prompt and any
delivery, so they hold for the prompt `Generate` builds from the form and
for whatever `send` returns for it. Dafny functions are deterministic, so
equal form fields give identical prompts.

## Model

| member | source | states |
|---|---|---|
| `ScentPrompt.PriceText` | app.py:18 | the price sentence is empty iff `max_price` is not truthy (missing or empty); otherwise it is `Only suggest fragrances priced below $`, the value exactly as submitted, and a full stop |
| `ScentPrompt.TraitLineAt` | app.py:19-28 | each of the eight traits appears verbatim right after its label (`- Age: `, …, `- Type: `) and is followed by a newline; an absent trait reads `None`; the line sits at an offset fixed by the earlier traits |
| `ScentPrompt.NextTraitLine` | app.py:21-28 | the trait lines are consecutive: the line of trait `k + 1` starts where the line of trait `k` ends |
| `ScentPrompt.PriceAfterTraitLines` | app.py:28-30 | the price slot starts after the blank line that follows the `Type` line: one newline past the end of that line, whose own newline ends it |
| `ScentPrompt.PriceSlot` | app.py:18-32 | the slot holds exactly the price sentence, a newline comes just before it, and a blank line and the fixed instructions follow it and end the prompt |
| `ScentPrompt.PriceSentenceIffTruthy` | app.py:18-30 | the slot starts with `Only suggest fragrances priced below $` iff `max_price` is truthy; in that case it holds the full sentence with the value and a full stop |
| `ScentPrompt.PriceSentenceOnlyDifference` | app.py:18-30 | without a truthy `max_price` the prompt equals the one built with no price; with one it is longer by exactly the sentence's length |
| `ScentPrompt.EndsWithJsonInstruction` | app.py:41-63 | every prompt, whatever its fields, ends with `Respond ONLY in JSON, no extra text. Format:`, a blank line, the schema and a newline |
| `ScentPrompt.SchemaShape` | app.py:43-62 | the schema opens with a single `{` and a newline, closes with a newline and a single `}` (the doubled braces render single), and its first key is `"scents"` |
| `ReplyRecovery.BraceSpan` | app.py:93 | the span reported for `\{.*\}` with DOTALL: there is none iff no `{` has a `}` after it; otherwise it is a match, and every other match lies inside it (leftmost start, greedy end), i.e. from the first `{` to the last `}` inclusive |
| `ReplyRecovery.BraceMatch` | app.py:93-95 | `match.group()`: there is none iff the pattern matches nowhere; otherwise it starts with `{`, ends with `}`, is a match of the pattern, and every other match lies inside it |
| `ReplyRecovery.EmbeddedObjectRecovered` | app.py:93 | an object wrapped in prose with no `{` before it and no `}` after it is cut out exactly |
| `ReplyRecovery.LookupContent` | app.py:85-88 | content is handed to the parser iff the reply is `{"choices": [{"message": {...}}, …]}` and `text` is the first message's content, with `""` when the key is missing; the "no choices" outcome occurs iff the reply is a dict whose `choices` is missing or falsy; every other early stop is a lookup exception of the kind Python raises for that shape: `AttributeError` for a reply or message that is not a dict, `KeyError` for a dict `choices` or a choice without `message`, `TypeError` for other `choices`, a first choice that is not a dict, or content that is not a string |
| `ReplyRecovery.ParseContent` | app.py:90-99 | a strict parse that succeeds is returned as is; "invalid JSON" occurs iff the strict parse fails and no brace match exists; otherwise the brace match's value is returned, or its decode error is raised; the only exception modelled here is that decode error |
| `ReplyRecovery.Recover` | app.py:81-102 | a transport failure raises its own exception; the content reaches the parser (ending parsed, as invalid JSON or in a decode error) iff the body was delivered and has a first message content; "no choices" occurs iff the body is a dict without truthy `choices`; a delivered body ends where the walk over it stops early, or else in the parse of its content |
| `ReplyRecovery.CallGemini` | app.py:81-102 | data is `None` whenever there is an error; there is no error iff the protocol ended in a parse; every error is one of the two fixed messages or the text of a caught exception, and each outcome gives its pair: a parse gives `(data, None)`, no choices and invalid JSON give `None` with their fixed message, and a caught exception `e` gives exactly `(None, str(e))` |
| `ReplyRecovery.NoChoicesReply` | app.py:85-86 | a dict reply without truthy `choices` gives `(None, "No choices returned from AI")` for every parser, so no parse is attempted |
| `ReplyRecovery.TransportFailureReported` | app.py:81-102 | a request or `resp.json()` that raises gives `(None, str(e))` of that exception |
| `ReplyRecovery.NonStringContentRaises` | app.py:88-102 | a first message whose `content` is not a string makes `json.loads` raise a type error, which the outer handler turns into `(None, str(e))` |
| `ReplyRecovery.StrictParseWins` | app.py:90-91 | if the content parses strictly, the result is `(data, None)` and the fallback is never consulted |
| `ReplyRecovery.FallbackOutcomes` | app.py:92-102 | after a failed strict parse: no match gives `(None, "AI returned invalid JSON")`; a match that parses gives `(its value, None)`; a match that does not parse gives `(None, str(decode error))` |
| `ReplyRecovery.NeverFabricates` | app.py:88-99 | data returned without an error is what the parser gave for the first choice's content, or for a brace-delimited span of it |
| `WebHandler.FormGet` | app.py:110-118 | `request.form.get(name)` is the submitted value when the field is present and `None` exactly when it is missing |
| `WebHandler.TraitsOf` | app.py:110-122 | trait `k` handed to the prompt builder is form field `age`, `gender`, …, `season` or `type` in the order of the labels; the maximum price handed on is `max_price` as submitted (`None` when missing), so the price sentence is asked for iff it was submitted non-empty |
| `WebHandler.ErrorHtml` | app.py:126 | the error page holds the error text and then the full prompt, both verbatim |
| `WebHandler.Respond` | app.py:124-129 | the error page is shown iff the error is truthy, and it is the page of that error and the prompt; the results page is shown iff the error is not truthy and the data is a dict, and it carries that dict's `scents` or an empty list |
| `WebHandler.Generate` | app.py:108-129 | the prompt built from the form is what is sent; the error page is shown iff the error returned for it is truthy, and it shows that error followed by that prompt; the results page is shown iff the reply parsed to a dict, and it carries that dict's `scents` or an empty list |
| `WebHandler.PromptShowsFormField` | app.py:110-122 | the prompt sent holds, on trait line `k`, the label and form field `FieldNames[k]` as submitted, or `None` when the form lacks it |
| `WebHandler.PromptShowsFormPrice` | app.py:110-122 | the prompt sent opens its price slot with `Only suggest fragrances priced below $` iff `max_price` was submitted non-empty, and then the slot holds that prefix, the submitted value verbatim and a full stop |
| `WebHandler.FixedErrorsShowPrompt` | app.py:120-126 | a "no choices" or "invalid JSON" outcome gives the error page with that message and the prompt that was sent |
| `WebHandler.ParsedReplyGivesScents` | app.py:124-128 | a parsed dict gives its `scents` (an empty list when absent); parsed data that is not a dict makes the handler raise |
| `WebHandler.EmptyExceptionTextRaises` | app.py:124-128 | a caught exception with empty text is not a truthy error, so the handler raises on `None.get` |
| `WebHandler.SchemaEchoRecovered` | app.py:43-62 | a reply that echoes the requested schema in prose with no `{` before it and no `}` after it is cut back to exactly that schema by the fallback |

## Left out

- Flask routing, `render_template` and the HTML templates (`index()`, the
  results page). The model stops at the `scents` value handed to the
  template. An exception the handler does not catch is `ServerError`.
- The outbound HTTP request: headers, payload, model name, the 30-second
  timeout and `resp.json()`. This is network I/O. Its outcome is an input
  (`Delivery`).
- `load_dotenv` and `os.getenv`. This is process configuration.
- The internals of `json.loads` and of Python's regex engine. The parser is
  a parameter, and the regex is modelled by what it matches.
- The exact text of exception messages. `str(e)` is a parameter. Lookup
  faults are kept only as their kind (`KeyFault`, `TypeFault`,
  `AttributeFault`).
- JSON numbers are reals. Only whether they are zero matters here, and NaN is
  not modelled. JSON objects are maps: a duplicate key keeps one value.
- Flask's `request.form` can hold several values for one field. The model
  keeps only the value that `get` returns.
- `ParseContent`: `None` from `parse` stands for a `JSONDecodeError` only.
  Other exceptions `json.loads` can raise on a string (a `RecursionError` on
  deeply nested arrays, a `ValueError` on an over-long integer literal) skip
  the brace fallback and end as `(None, str(e))`; the parser parameter
  cannot express them, so they are not modelled.

=== FILE: handler.dfy ===
/** The POST /generate handler (app.py, lines 108-129): read the nine form
    fields, build the prompt, call the provider, and answer with an error page
    or the list of scents. The HTTP call is the parameter `send`; template
    rendering is not part of this model, so the result page is the `scents`
    value handed to the template. */
module WebHandler {
  import opened Wrappers
  import opened Strings
  import opened JsonValue
  import opened ScentPrompt
  import opened ReplyRecovery

  /** The submitted form: each field name with its (first) value. */
  type Form = map<string, string>

  /** `request.form.get(name)`: the value, or `None` when the field is missing. */
  function FormGet(form: Form, name: string): (v: Option<string>)
    ensures v.None? <==> name !in form
    ensures v.Some? ==> v.value == form[name]
  {
    if name in form then Some(form[name]) else None
  }

  /** The form fields behind the eight trait lines, in the order of `Labels`;
      the scent type is submitted as `type`. */
  const FieldNames: seq<string> :=
    ["age", "gender", "occupation", "mood", "activities", "style", "season", "type"]

  /** The traits read from the form: trait `k` is field `FieldNames[k]`, and
      the price sentence is asked for exactly when `max_price` was submitted
      non-empty. */
  function TraitsOf(form: Form): (t: Traits)
    ensures forall k :: 0 <= k < |Labels| ==> Values(t)[k] == FormGet(form, FieldNames[k])
    ensures t.maxPrice == FormGet(form, "max_price")
    ensures FieldTruthy(t.maxPrice) <==> "max_price" in form && form["max_price"] != ""
  {
    Traits(
      FormGet(form, "age"), FormGet(form, "gender"), FormGet(form, "occupation"),
      FormGet(form, "mood"), FormGet(form, "activities"), FormGet(form, "style"),
      FormGet(form, "season"), FormGet(form, "type"), FormGet(form, "max_price"))
  }

  /** What the handler answers. `ServerError` is an exception the handler
      does not catch (`data.get` on a value that is not a dict). */
  datatype Page = ErrorPage(html: string) | ResultsPage(scents: Json) | ServerError

  const ErrorOpen := "<p>Error: "
  const PromptOpen := "</p><pre>Prompt:\n"

  /** The inline error page of line 126: the error text and then the full
      prompt, both verbatim. */
  function ErrorHtml(error: string, prompt: string): (h: string)
    ensures Shows(h, |ErrorOpen|, error)
    ensures Shows(h, |ErrorOpen| + |error| + |PromptOpen|, prompt)
  {
    ShowsMiddle(ErrorOpen, error, PromptOpen + prompt + "</pre>");
    ShowsMiddle(ErrorOpen + error + PromptOpen, prompt, "</pre>");
    ErrorOpen + error + PromptOpen + prompt + "</pre>"
  }

  /** Lines 124-129: a truthy error gives the error page; otherwise the
      `scents` entry of the data, or an empty list when it has none. */
  function Respond(prompt: string, r: CallResult): (page: Page)
    ensures page.ErrorPage? <==> r.error.Some? && r.error.value != ""
    ensures page.ErrorPage? ==> page.html == ErrorHtml(r.error.value, prompt)
    ensures page.ResultsPage? <==> (r.error.None? || r.error.value == "") && r.data.JObject?
    ensures page.ResultsPage? && "scents" in r.data.fields ==> page.scents == r.data.fields["scents"]
    ensures page.ResultsPage? && "scents" !in r.data.fields ==> page.scents == JArray([])
  {
    if r.error.Some? && r.error.value != "" then ErrorPage(ErrorHtml(r.error.value, prompt))
    else
      match r.data
      case JObject(fields) => ResultsPage(Get(fields, "scents", JArray([])))
      case _ => ServerError
  }

  /** generate(): the prompt built from the form is what is sent, and what
      comes back decides the page. An error page always shows a non-empty
      error and the prompt that was sent; the results page is shown exactly
      when the reply parsed to a dict. */
  function Generate(form: Form, send: string -> Delivery, parse: string -> Option<Json>, str: Exc -> string): (page: Page)
    ensures var o := Recover(send(Prompt(TraitsOf(form))), parse);
            page.ResultsPage? <==> o.Parsed? && o.data.JObject?
    ensures var prompt := Prompt(TraitsOf(form));
            var r := CallGemini(send(prompt), parse, str);
            page.ErrorPage? ==> r.error.Some? && r.error.value != "" && page.html == ErrorHtml(r.error.value, prompt)
    ensures var r := CallGemini(send(Prompt(TraitsOf(form))), parse, str);
            page.ErrorPage? <==> r.error.Some? && r.error.value != ""
    ensures var r := CallGemini(send(Prompt(TraitsOf(form))), parse, str);
            page.ResultsPage? ==> page.scents == Get(r.data.fields, "scents", JArray([]))
  {
    var prompt := Prompt(TraitsOf(form));
    Respond(prompt, CallGemini(send(prompt), parse, str))
  }

  // ---------------------------------------------------------------------

  /** The prompt shows the form as submitted: line `k` of the traits is
      `- <label>: ` followed by form field `FieldNames[k]` as `Show` renders
      it (the text `None` when the form lacks the field) and a newline. */
  lemma PromptShowsFormField(form: Form, k: nat)
    requires k < |Labels|
    ensures Shows(Prompt(TraitsOf(form)), TraitOffset(TraitsOf(form), k), Line(Labels[k], FormGet(form, FieldNames[k])))
  {
    TraitLineAt(TraitsOf(form), k);
  }

  /** The price sentence opens the prompt's price slot exactly when
      `max_price` was submitted non-empty, and then it carries the submitted
      value verbatim followed by a full stop. */
  lemma PromptShowsFormPrice(form: Form)
    ensures Shows(Prompt(TraitsOf(form)), PriceOffset(TraitsOf(form)), PricePrefix)
            <==> "max_price" in form && form["max_price"] != ""
    ensures "max_price" in form && form["max_price"] != "" ==>
              Shows(Prompt(TraitsOf(form)), PriceOffset(TraitsOf(form)), PricePrefix + form["max_price"] + ".")
  {
    PriceSentenceIffTruthy(TraitsOf(form));
  }

  // The lemmas below are stated for any prompt and any delivery, so they
  // cover whatever prompt `Generate` builds and whatever `send` returns.

  /** A reply with no choices, or whose content holds no parseable JSON and
      no brace match, gives the error page with the fixed message and the
      prompt, whatever the exception texts are. */
  lemma FixedErrorsShowPrompt(prompt: string, delivery: Delivery, parse: string -> Option<Json>, str: Exc -> string)
    ensures var o, page := Recover(delivery, parse), Respond(prompt, CallGemini(delivery, parse, str));
            && (o == NoChoices ==> page == ErrorPage(ErrorHtml(NoChoicesText, prompt)))
            && (o == InvalidJson ==> page == ErrorPage(ErrorHtml(InvalidJsonText, prompt)))
  {
  }

  /** A reply that parses to a dict gives the results page with its `scents`
      (an empty list when absent); one that parses to anything else makes
      the handler raise. */
  lemma ParsedReplyGivesScents(prompt: string, delivery: Delivery, parse: string -> Option<Json>, str: Exc -> string)
    ensures var o, page := Recover(delivery, parse), Respond(prompt, CallGemini(delivery, parse, str));
            o.Parsed? ==>
              && (o.data.JObject? ==> page == ResultsPage(Get(o.data.fields, "scents", JArray([]))))
              && (!o.data.JObject? ==> page == ServerError)
  {
  }

  /** A caught exception whose text is empty is not a truthy error: the
      handler goes on to `data.get` on `None` and raises. */
  lemma EmptyExceptionTextRaises(prompt: string, delivery: Delivery, parse: string -> Option<Json>, str: Exc -> string)
    ensures var o := Recover(delivery, parse);
            o.Raised? && str(o.e) == "" ==> Respond(prompt, CallGemini(delivery, parse, str)) == ServerError
  {
  }

  /** A reply that wraps the example document the prompt asks for in prose
      with no `{` before it and no `}` after it is cut back to exactly that
      document by the brace fallback. */
  lemma SchemaEchoRecovered(before: string, after: string)
    requires forall i :: 0 <= i < |before| ==> before[i] != '{'
    requires forall i :: 0 <= i < |after| ==> after[i] != '}'
    ensures BraceMatch(before + Schema + after) == Some(Schema)
  {
    SchemaShape();
    EmbeddedObjectRecovered(before, Schema, after);
  }
}

=== FILE: json_value.dfy ===
/** The values `json.loads` produces, and the few Python operations the
    recovery code applies to them. */
module JsonValue {

  /** A decoded JSON document as Python holds it. `JNull` is Python's `None`,
      which is also what the recovery code returns as "no data". Numbers are
      kept as reals: only whether they are zero matters here. */
  datatype Json =
    | JNull
    | JBool(b: bool)
    | JNumber(n: real)
    | JString(s: string)
    | JArray(items: seq<Json>)
    | JObject(fields: map<string, Json>)

  /** Python truthiness of a decoded value: `None`, `False`, zero and the empty
      string, list and dict are false, everything else is true. */
  predicate Truthy(j: Json)
  {
    match j
    case JNull => false
    case JBool(b) => b
    case JNumber(n) => n != 0.0
    case JString(s) => s != ""
    case JArray(items) => items != []
    case JObject(fields) => fields != map[]
  }

  /** `d.get(key, default)` on a dict. */
  function Get(fields: map<string, Json>, key: string, default: Json): Json
  {
    if key in fields then fields[key] else default
  }
}

=== FILE: prompt.dfy ===
/** The prompt sent to the language model, built from the nine form fields
    (app.py, build_scent_prompt_gemini). The prompt is a concatenation of
    fixed pieces and the rendered field values; the lemmas locate each value
    in it. */
module ScentPrompt {
  import opened Wrappers
  import opened Strings

  /** The nine form fields; a field the form does not carry is `None`. */
  datatype Traits = Traits(
    age: Option<string>,
    gender: Option<string>,
    occupation: Option<string>,
    mood: Option<string>,
    activities: Option<string>,
    style: Option<string>,
    season: Option<string>,
    scentType: Option<string>,
    maxPrice: Option<string>)

  /** How an f-string renders a form value: the string itself, or `None`. */
  function Show(v: Option<string>): string
  {
    match v
    case Some(s) => s
    case None => "None"
  }

  /** Python truthiness of a form value: present and not empty. */
  predicate FieldTruthy(v: Option<string>)
  {
    v.Some? && v.value != ""
  }

  /** The labels of the eight trait lines, in prompt order. */
  const Labels: seq<string> :=
    ["Age", "Gender", "Occupation", "Mood", "Activities", "Style", "Season", "Type"]

  /** The eight trait values, in the order of `Labels`. */
  function Values(t: Traits): (vs: seq<Option<string>>)
    ensures |vs| == |Labels|
  {
    [t.age, t.gender, t.occupation, t.mood, t.activities, t.style, t.season, t.scentType]
  }

  /** One trait line: `- <key>: <value>` and a newline. */
  function Line(key: string, v: Option<string>): string
  {
    "- " + key + ": " + Show(v) + "\n"
  }

  /** The trait lines of entries `i` up to (not including) `j`, in order. */
  function Lines(keys: seq<string>, vs: seq<Option<string>>, i: nat, j: nat): string
    requires i <= j <= |keys| == |vs|
    decreases j - i
  {
    if i == j then "" else Line(keys[i], vs[i]) + Lines(keys, vs, i + 1, j)
  }

  /** All eight trait lines of the prompt. */
  function TraitLines(t: Traits): string
  {
    Lines(Labels, Values(t), 0, |Labels|)
  }

  const Intro := "\nYou are a fragrance expert. Based on the following user traits:\n"

  const PricePrefix := "Only suggest fragrances priced below $"

  /** The optional price sentence: empty exactly when the maximum price is
      not truthy, and otherwise the prefix, the value as submitted and a
      full stop. */
  function PriceText(maxPrice: Option<string>): (s: string)
    ensures s == "" <==> !FieldTruthy(maxPrice)
    ensures FieldTruthy(maxPrice) ==>
              && |s| == |PricePrefix| + |maxPrice.value| + 1
              && s[..|PricePrefix|] == PricePrefix
              && s[|PricePrefix| .. |s| - 1] == maxPrice.value
              && s[|s| - 1] == '.'
  {
    if FieldTruthy(maxPrice) then PricePrefix + maxPrice.value + "." else ""
  }

  const Request :=
    "Suggest 3 real perfumes or colognes that fit this user. \n\n"
    + "For each suggestion provide:\n"
    + "- name\n"
    + "- brand\n"
    + "- reason (1-2 sentences)\n"
    + "- approximate retail price in USD for common bottle sizes: 30ml, 50ml, 100ml\n"
    + "- top, middle, and base notes as lists\n\n"

  const JsonOnly := "Respond ONLY in JSON, no extra text. Format:"

  /** The key under which the reply is to list its suggestions. */
  const ScentsKey := "\"scents\""

  const SchemaOpen := "{\n  "

  /** The example document; the template's doubled braces render as single ones. */
  const Schema := SchemaOpen + ScentsKey + SchemaTail

  const SchemaTail :=
    ": [\n"
    + "    {\n"
    + "      \"name\": \"...\",\n"
    + "      \"brand\": \"...\",\n"
    + "      \"reason\": \"...\",\n"
    + "      \"price_usd\": {\n"
    + "        \"30ml\": \"≈ $XX\",\n"
    + "        \"50ml\": \"≈ $XX\",\n"
    + "        \"100ml\": \"≈ $XX\"\n"
    + "      },\n"
    + "      \"notes\": {\n"
    + "        \"top\": [\"...\"],\n"
    + "        \"middle\": [\"...\"],\n"
    + "        \"base\": [\"...\"]\n"
    + "      }\n"
    + "    },\n"
    + "    ... (total 3 scents)\n"
    + "  ]\n"
    + "}"

  /** Everything after the price slot: the request, the JSON-only instruction
      and the schema. It does not depend on any field. */
  const Instructions := Request + JsonInstruction

  /** The closing instruction: answer in JSON only, shaped like the schema. */
  const JsonInstruction := JsonOnly + "\n\n" + Schema + "\n"

  /** How the template lays its pieces out: the intro, the trait lines, a
      newline, the price slot, a blank line and the instructions. */
  function Layout(intro: string, lines: string, price: string, rest: string): string
  {
    intro + lines + "\n" + price + "\n\n" + rest
  }

  /** Where the price slot starts in a layout: after the trait lines and the
      newline that ends the last of them. */
  function SlotOffset(intro: string, lines: string): nat
  {
    |intro| + |lines| + 1
  }

  /** The template filled in from the nine fields, followed by `rest`. The
      lemmas are proved for this function with any `rest` and then taken at
      `rest := Instructions`, so that their proofs never unfold the long
      fixed text. */
  function PromptWith(t: Traits, rest: string): string
  {
    Layout(Intro, TraitLines(t), PriceText(t.maxPrice), rest)
  }

  /** build_scent_prompt_gemini: the nine fields rendered into the template. */
  function Prompt(t: Traits): string
  {
    PromptWith(t, Instructions)
  }

  /** Where the line of trait `k` starts in the prompt: after the intro and
      the lines of the traits before it. */
  function TraitOffset(t: Traits, k: nat): nat
    requires k <= |Labels|
  {
    |Intro| + |Lines(Labels, Values(t), 0, k)|
  }

  /** Where the price sentence starts in the prompt. */
  function PriceOffset(t: Traits): nat
  {
    SlotOffset(Intro, TraitLines(t))
  }

  /** The trait lines of a range split around entry `k`. */
  lemma {:induction false} LinesSplit(keys: seq<string>, vs: seq<Option<string>>, i: nat, k: nat, j: nat)
    requires i <= k < j <= |keys| == |vs|
    decreases k - i
    ensures Lines(keys, vs, i, j)
            == Lines(keys, vs, i, k) + Line(keys[k], vs[k]) + Lines(keys, vs, k + 1, j)
  {
    if i < k {
      LinesSplit(keys, vs, i + 1, k, j);
      Regroup(Line(keys[i], vs[i]), Lines(keys, vs, i + 1, k), Line(keys[k], vs[k]), Lines(keys, vs, k + 1, j));
    }
  }

  /** In any layout, a line `l` inside the trait lines `a + l + b` sits
      right after the intro and `a`. */
  lemma LayoutLine(intro: string, a: string, l: string, b: string, price: string, rest: string)
    ensures Shows(Layout(intro, a + l + b, price, rest), |intro| + |a|, l)
  {
    var after := b + "\n" + price + "\n\n" + rest;
    assert Layout(intro, a + l + b, price, rest) == (intro + a) + l + after;
    ShowsMiddle(intro + a, l, after);
  }

  /** `TraitLineAt` for the template followed by any text. */
  lemma TraitLineIn(t: Traits, rest: string, k: nat)
    requires k < |Labels|
    ensures Shows(PromptWith(t, rest), TraitOffset(t, k), Line(Labels[k], Values(t)[k]))
  {
    var vs := Values(t);
    var a, l, b := Lines(Labels, vs, 0, k), Line(Labels[k], vs[k]), Lines(Labels, vs, k + 1, |Labels|);
    LinesSplit(Labels, vs, 0, k, |Labels|);
    assert PromptWith(t, rest) == Layout(Intro, a + l + b, PriceText(t.maxPrice), rest);
    LayoutLine(Intro, a, l, b, PriceText(t.maxPrice), rest);
  }

  /** Each trait's value appears verbatim right after its label, on its own
      line, at an offset fixed by the traits before it; an absent trait
      reads `None`. */
  lemma TraitLineAt(t: Traits, k: nat)
    requires k < |Labels|
    ensures Shows(Prompt(t), TraitOffset(t, k), Line(Labels[k], Values(t)[k]))
  {
    TraitLineIn(t, Instructions, k);
  }

  /** The line of trait `k + 1` starts right after the line of trait `k`. */
  lemma NextTraitLine(t: Traits, k: nat)
    requires k < |Labels|
    ensures TraitOffset(t, k + 1) == TraitOffset(t, k) + |Line(Labels[k], Values(t)[k])|
  {
    LinesSplit(Labels, Values(t), 0, k, k + 1);
  }

  /** The price slot starts one newline after the end of the last trait
      line. */
  lemma PriceAfterTraitLines(t: Traits)
    ensures PriceOffset(t) == TraitOffset(t, |Labels|) + 1
  {
  }

  /** In any layout the slot holds exactly the price piece, a newline comes
      just before it, and a blank line and the instructions follow it and
      end the text. */
  lemma LayoutSlot(intro: string, lines: string, price: string, rest: string)
    ensures Shows(Layout(intro, lines, price, rest), SlotOffset(intro, lines), price)
    ensures Shows(Layout(intro, lines, price, rest), SlotOffset(intro, lines) - 1, "\n")
    ensures Shows(Layout(intro, lines, price, rest), SlotOffset(intro, lines) + |price|, "\n\n" + rest)
    ensures |Layout(intro, lines, price, rest)| == SlotOffset(intro, lines) + |price| + 2 + |rest|
  {
    var head := intro + lines;
    assert Layout(intro, lines, price, rest) == head + "\n" + (price + ("\n\n" + rest));
    ShowsMiddle(head, "\n", price + ("\n\n" + rest));
    assert Layout(intro, lines, price, rest) == (head + "\n") + price + ("\n\n" + rest);
    ShowsMiddle(head + "\n", price, "\n\n" + rest);
    ShowsMiddle((head + "\n") + price, "\n\n" + rest, "");
  }

  /** `PriceSlot` for the template followed by any text. */
  lemma PriceSlotIn(t: Traits, rest: string)
    ensures Shows(PromptWith(t, rest), PriceOffset(t), PriceText(t.maxPrice))
    ensures Shows(PromptWith(t, rest), PriceOffset(t) - 1, "\n")
    ensures Shows(PromptWith(t, rest), PriceOffset(t) + |PriceText(t.maxPrice)|, "\n\n" + rest)
    ensures |PromptWith(t, rest)| == PriceOffset(t) + |PriceText(t.maxPrice)| + 2 + |rest|
  {
    LayoutSlot(Intro, TraitLines(t), PriceText(t.maxPrice), rest);
  }

  /** The price slot holds exactly the price sentence; a newline comes just
      before it, and a blank line and the fixed instructions follow it and
      end the prompt. */
  lemma PriceSlot(t: Traits)
    ensures Shows(Prompt(t), PriceOffset(t), PriceText(t.maxPrice))
    ensures Shows(Prompt(t), PriceOffset(t) - 1, "\n")
    ensures Shows(Prompt(t), PriceOffset(t) + |PriceText(t.maxPrice)|, "\n\n" + Instructions)
    ensures |Prompt(t)| == PriceOffset(t) + |PriceText(t.maxPrice)| + 2 + |Instructions|
  {
    PriceSlotIn(t, Instructions);
  }

  /** In any layout the price slot starts with the price prefix exactly when
      the maximum price is truthy, and then holds the whole sentence. */
  lemma LayoutSentence(intro: string, lines: string, m: Option<string>, rest: string)
    ensures Shows(Layout(intro, lines, PriceText(m), rest), SlotOffset(intro, lines), PricePrefix)
            <==> FieldTruthy(m)
    ensures FieldTruthy(m) ==>
              Shows(Layout(intro, lines, PriceText(m), rest), SlotOffset(intro, lines), PricePrefix + m.value + ".")
  {
    var p, o := Layout(intro, lines, PriceText(m), rest), SlotOffset(intro, lines);
    LayoutSlot(intro, lines, PriceText(m), rest);
    if FieldTruthy(m) {
      ShowsConcat(p, o, PricePrefix, m.value + ".");
    } else {
      assert p[o .. o + 2 + |rest|][0] == '\n';
      NotShowsAt(p, o, PricePrefix);
    }
  }

  /** `PriceSentenceIffTruthy` for the template followed by any text. */
  lemma PriceSentenceIn(t: Traits, rest: string)
    ensures Shows(PromptWith(t, rest), PriceOffset(t), PricePrefix) <==> FieldTruthy(t.maxPrice)
    ensures FieldTruthy(t.maxPrice) ==>
              Shows(PromptWith(t, rest), PriceOffset(t), PricePrefix + t.maxPrice.value + ".")
  {
    LayoutSentence(Intro, TraitLines(t), t.maxPrice, rest);
  }

  /** The sentence `Only suggest fragrances priced below $<max_price>.` fills
      the price slot when the maximum price is truthy; otherwise the slot
      does not start with it. */
  lemma PriceSentenceIffTruthy(t: Traits)
    ensures Shows(Prompt(t), PriceOffset(t), PricePrefix) <==> FieldTruthy(t.maxPrice)
    ensures FieldTruthy(t.maxPrice) ==> Shows(Prompt(t), PriceOffset(t), PricePrefix + t.maxPrice.value + ".")
  {
    PriceSentenceIn(t, Instructions);
  }

  /** The length of a layout is the sum of its pieces and the three newlines. */
  lemma LayoutLength(intro: string, lines: string, price: string, rest: string)
    ensures |Layout(intro, lines, price, rest)| == |intro| + |lines| + |price| + 3 + |rest|
  {
  }

  /** `PriceSentenceOnlyDifference` for the template followed by any text. */
  lemma PriceDifferenceIn(t: Traits, rest: string)
    ensures !FieldTruthy(t.maxPrice) ==> PromptWith(t, rest) == PromptWith(t.(maxPrice := None), rest)
    ensures |PromptWith(t, rest)|
            == |PromptWith(t.(maxPrice := None), rest)|
               + (if FieldTruthy(t.maxPrice) then |PricePrefix| + |t.maxPrice.value| + 1 else 0)
  {
    var lines := TraitLines(t);
    assert Values(t.(maxPrice := None)) == Values(t);
    LayoutLength(Intro, lines, PriceText(t.maxPrice), rest);
    LayoutLength(Intro, lines, PriceText(None), rest);
  }

  /** Without a truthy maximum price the prompt is the one built with no
      price at all; with one, it is longer by exactly the sentence. */
  lemma PriceSentenceOnlyDifference(t: Traits)
    ensures !FieldTruthy(t.maxPrice) ==> Prompt(t) == Prompt(t.(maxPrice := None))
    ensures |Prompt(t)|
            == |Prompt(t.(maxPrice := None))|
               + (if FieldTruthy(t.maxPrice) then |PricePrefix| + |t.maxPrice.value| + 1 else 0)
  {
    PriceDifferenceIn(t, Instructions);
  }

  /** Any layout whose instructions end with `tail` ends with `tail`. */
  lemma LayoutEndsWith(intro: string, lines: string, price: string, r: string, tail: string)
    ensures var p := Layout(intro, lines, price, r + tail);
            |tail| <= |p| && p[|p| - |tail| ..] == tail
  {
    var head := intro + lines + "\n" + price + "\n\n" + r;
    assert Layout(intro, lines, price, r + tail) == head + tail;
    SuffixOfConcat(head, tail);
  }

  /** The template followed by `r + tail` ends with `tail`. */
  lemma EndsWithIn(t: Traits, r: string, tail: string)
    ensures var p := PromptWith(t, r + tail);
            |tail| <= |p| && p[|p| - |tail| ..] == tail
  {
    LayoutEndsWith(Intro, TraitLines(t), PriceText(t.maxPrice), r, tail);
  }

  /** Every prompt ends with the JSON-only instruction, a blank line and the
      schema, whatever the fields are. */
  lemma EndsWithJsonInstruction(t: Traits)
    ensures var p, tail := Prompt(t), JsonOnly + "\n\n" + Schema + "\n";
            |tail| <= |p| && p[|p| - |tail| ..] == tail
  {
    EndsWithIn(t, Request, JsonInstruction);
  }

  /** The schema is one brace-delimited object whose first key is `"scents"`,
      with no doubled brace left over from the template's escaping. */
  lemma SchemaShape()
    ensures Schema[0] == '{' && Schema[1] == '\n'
    ensures Schema[|Schema| - 2] == '\n' && Schema[|Schema| - 1] == '}'
    ensures Schema[4 .. 12] == ScentsKey
  {
    ShowsMiddle(SchemaOpen, ScentsKey, SchemaTail);
  }
}

=== FILE: recovery.dfy ===
/** What call_gemini does with the provider's reply once the HTTP call has
    returned (app.py, lines 81-102): find the first choice's content, parse it
    strictly, fall back to the text between the first `{` and the last `}`,
    and flatten the outcome into a `(data, error)` pair. `json.loads` is a
    parameter `parse` (None when it raises a decode error), and Python's
    `str(e)` of a caught exception is a parameter `str`. */
module ReplyRecovery {
  import opened Wrappers
  import opened Strings
  import opened JsonValue

  /** What `requests.post(...)` followed by `resp.json()` hands back: the
      decoded body, or the exception one of them raised. */
  datatype Delivery = Delivered(body: Json) | TransportFailed(detail: string)

  /** The exceptions the outer `except Exception` catches. */
  datatype Exc =
    | TransportError(detail: string)  // raised by the HTTP call or resp.json()
    | DecodeError(document: string)   // json.loads rejected the brace match
    | KeyFault                        // a missing key, or a dict indexed by 0
    | TypeFault                       // a subscript the value does not support, or json.loads on a non-string
    | AttributeFault                  // `.get` on a value that is not a dict

  /** The outcome of the protocol before it is flattened into a pair. */
  datatype Outcome = Parsed(data: Json) | NoChoices | InvalidJson | Raised(e: Exc)

  /** What call_gemini returns: `(data, error)`, with `JNull` for Python's `None` data. */
  datatype CallResult = CallResult(data: Json, error: Option<string>)

  const NoChoicesText := "No choices returned from AI"
  const InvalidJsonText := "AI returned invalid JSON"

  // ---------------------------------------------------------------------
  // The brace fallback: re.search(r'\{.*\}', content, re.DOTALL)

  /** The first index of `c` in `s`. */
  function FirstIndexOf(s: string, c: char): (r: Option<nat>)
    ensures r.Some? ==> r.value < |s| && s[r.value] == c
    ensures r.Some? ==> forall i :: 0 <= i < r.value ==> s[i] != c
    ensures r.None? ==> forall i :: 0 <= i < |s| ==> s[i] != c
  {
    if s == [] then None
    else if s[0] == c then Some(0)
    else
      match FirstIndexOf(s[1..], c)
      case None => None
      case Some(i) => Some(i + 1)
  }

  /** The last index of `c` in `s`. */
  function LastIndexOf(s: string, c: char): (r: Option<nat>)
    ensures r.Some? ==> r.value < |s| && s[r.value] == c
    ensures r.Some? ==> forall i :: r.value < i < |s| ==> s[i] != c
    ensures r.None? ==> forall i :: 0 <= i < |s| ==> s[i] != c
  {
    if s == [] then None
    else if s[|s| - 1] == c then Some(|s| - 1)
    else LastIndexOf(s[..|s| - 1], c)
  }

  /** The pattern `\{.*\}` with DOTALL (where `.` matches any character,
      newlines included) matches exactly `s[i..j]`. */
  predicate BracePatternMatches(s: string, i: int, j: int)
  {
    0 <= i && i + 2 <= j <= |s| && s[i] == '{' && s[j - 1] == '}'
  }

  /** The span `[i, j)` of the match `re.search` reports: the leftmost start
      of any match, and from there the longest match, since `.*` is greedy.
      That is the span from the first `{` to the last `}`. */
  function BraceSpan(s: string): (r: Option<(nat, nat)>)
    ensures r.None? <==> forall i, j :: !BracePatternMatches(s, i, j)
    ensures r.Some? ==> BracePatternMatches(s, r.value.0, r.value.1)
    ensures r.Some? ==>
              forall i, j :: BracePatternMatches(s, i, j) ==> r.value.0 <= i && j <= r.value.1
  {
    match (FirstIndexOf(s, '{'), LastIndexOf(s, '}'))
    case (Some(i), Some(j)) =>
      assert forall a, b :: BracePatternMatches(s, a, b) ==> i <= a && b - 1 <= j;
      if i < j then assert BracePatternMatches(s, i, j + 1); Some((i, j + 1)) else None
    case _ => None
  }

  /** `match.group()`, or None when there is no match: otherwise a
      brace-delimited piece of `s` that contains every other match. */
  function BraceMatch(s: string): (r: Option<string>)
    ensures r.None? <==> forall i, j :: !BracePatternMatches(s, i, j)
    ensures r.Some? ==> |r.value| >= 2 && r.value[0] == '{' && r.value[|r.value| - 1] == '}'
    ensures r.Some? ==>
              exists i, j :: BracePatternMatches(s, i, j) && r.value == s[i..j]
                && forall a, b :: BracePatternMatches(s, a, b) ==> i <= a && b <= j
  {
    match BraceSpan(s)
    case None => None
    case Some((i, j)) => Some(s[i..j])
  }

  /** An object embedded in prose is cut out exactly when the text before it
      has no `{` and the text after it has no `}`; a reply holding two
      objects is therefore cut from the first one's `{` to the second one's
      `}`. */
  lemma EmbeddedObjectRecovered(before: string, doc: string, after: string)
    requires |doc| >= 2 && doc[0] == '{' && doc[|doc| - 1] == '}'
    requires forall i :: 0 <= i < |before| ==> before[i] != '{'
    requires forall i :: 0 <= i < |after| ==> after[i] != '}'
    ensures BraceMatch(before + doc + after) == Some(doc)
  {
    var s := before + doc + after;
    var i, j := |before|, |before| + |doc|;
    assert s[i] == doc[0] && s[j - 1] == doc[|doc| - 1];
    assert BracePatternMatches(s, i, j);
    var span := BraceSpan(s).value;
    assert span == (i, j);
    ShowsMiddle(before, doc, after);
  }

  // ---------------------------------------------------------------------
  // Walking the decoded reply

  /** The reply has the shape the code reads without raising, and `text` is
      its first choice's message content (the empty string when the message
      has no content key): `result["choices"][0]["message"].get("content", "")`. */
  predicate FirstContentIs(result: Json, text: string)
  {
    && result.JObject?
    && "choices" in result.fields
    && result.fields["choices"].JArray?
    && |result.fields["choices"].items| > 0
    && var first := result.fields["choices"].items[0];
    && first.JObject?
    && "message" in first.fields
    && first.fields["message"].JObject?
    && Get(first.fields["message"].fields, "content", JString("")) == JString(text)
  }

  /** Where the walk over the reply ends: the content string to parse, or an
      outcome reached before any parse. */
  datatype ContentLookup = Content(text: string) | Early(o: Outcome)

  /** Lines 85-88 of call_gemini: the `choices` check and the lookup of the
      first choice's content, with the exception each wrong shape raises. */
  function LookupContent(result: Json): (r: ContentLookup)
    ensures forall text :: r == Content(text) <==> FirstContentIs(result, text)
    ensures r == Early(NoChoices)
            <==> result.JObject? && !Truthy(Get(result.fields, "choices", JNull))
    ensures r.Early? ==> r.o == NoChoices || (r.o.Raised? && !r.o.e.TransportError? && !r.o.e.DecodeError?)
    // the exception each wrong shape raises
    ensures !result.JObject? ==> r == Early(Raised(AttributeFault))
    ensures result.JObject? && "choices" in result.fields ==>
              var choices := result.fields["choices"];
              && (Truthy(choices) && choices.JObject? ==> r == Early(Raised(KeyFault)))
              && (Truthy(choices) && !choices.JObject? && !choices.JArray? ==> r == Early(Raised(TypeFault)))
              && (Truthy(choices) && choices.JArray? ==>
                    var first := choices.items[0];
                    && (!first.JObject? ==> r == Early(Raised(TypeFault)))
                    && (first.JObject? && "message" !in first.fields ==> r == Early(Raised(KeyFault)))
                    && (first.JObject? && "message" in first.fields && !first.fields["message"].JObject? ==>
                          r == Early(Raised(AttributeFault)))
                    && (first.JObject? && "message" in first.fields && first.fields["message"].JObject?
                        && "content" in first.fields["message"].fields
                        && !first.fields["message"].fields["content"].JString? ==>
                          r == Early(Raised(TypeFault))))
  {
    if !result.JObject? then Early(Raised(AttributeFault))
    else
      var choices := Get(result.fields, "choices", JNull);
      if !Truthy(choices) then Early(NoChoices)
      else if choices.JObject? then Early(Raised(KeyFault))
      else if !choices.JArray? then Early(Raised(TypeFault))
      else
        var first := choices.items[0];
        if !first.JObject? then Early(Raised(TypeFault))
        else if "message" !in first.fields then Early(Raised(KeyFault))
        else
          var message := first.fields["message"];
          if !message.JObject? then Early(Raised(AttributeFault))
          else
            match Get(message.fields, "content", JString(""))
            case JString(text) => Content(text)
            case _ => Early(Raised(TypeFault))
  }

  /** Lines 90-99: the strict parse, then the brace fallback. */
  function ParseContent(content: string, parse: string -> Option<Json>): (r: Outcome)
    ensures !r.NoChoices?
    ensures r.Raised? ==> r.e.DecodeError?
    ensures parse(content).Some? ==> r == Parsed(parse(content).value)
    ensures r == InvalidJson
            <==> parse(content).None? && forall i, j :: !BracePatternMatches(content, i, j)
    ensures parse(content).None? && BraceSpan(content).Some? ==>
              var m := content[BraceSpan(content).value.0 .. BraceSpan(content).value.1];
              r == (match parse(m) case Some(d) => Parsed(d) case None => Raised(DecodeError(m)))
  {
    match parse(content)
    case Some(data) => Parsed(data)
    case None =>
      match BraceMatch(content)
      case None => InvalidJson
      case Some(m) =>
        match parse(m)
        case Some(data) => Parsed(data)
        case None => Raised(DecodeError(m))
  }

  /** The whole decision procedure of call_gemini after the request is sent.
      A transport failure is caught as such; a parse is attempted (ending in
      data, "invalid JSON" or a decode error) exactly when the reply has the
      shape that yields a content string; "no choices" comes exactly from a
      dict reply without truthy `choices`. */
  function Recover(delivery: Delivery, parse: string -> Option<Json>): (o: Outcome)
    ensures delivery.TransportFailed? ==> o == Raised(TransportError(delivery.detail))
    ensures (o.Parsed? || o == InvalidJson || (o.Raised? && o.e.DecodeError?))
            <==> delivery.Delivered? && exists text :: FirstContentIs(delivery.body, text)
    ensures o == NoChoices
            <==> delivery.Delivered? && delivery.body.JObject?
                 && !Truthy(Get(delivery.body.fields, "choices", JNull))
    ensures delivery.Delivered? && LookupContent(delivery.body).Early? ==> o == LookupContent(delivery.body).o
    ensures delivery.Delivered? && LookupContent(delivery.body).Content? ==>
              o == ParseContent(LookupContent(delivery.body).text, parse)
  {
    match delivery
    case TransportFailed(detail) => Raised(TransportError(detail))
    case Delivered(result) =>
      match LookupContent(result)
      case Early(o) => o
      case Content(text) => ParseContent(text, parse)
  }

  /** call_gemini's `(data, error)` pair. There is data exactly when there is
      no error, and every error is one of the two fixed messages or the text
      of a caught exception. */
  function CallGemini(delivery: Delivery, parse: string -> Option<Json>, str: Exc -> string): (r: CallResult)
    ensures r.error.Some? ==> r.data == JNull
    ensures r.error.None? <==> Recover(delivery, parse).Parsed?
    ensures r.error.Some? ==>
              r.error.value == NoChoicesText || r.error.value == InvalidJsonText
              || exists e :: r.error.value == str(e)
    ensures Recover(delivery, parse).Raised? ==>
              r == CallResult(JNull, Some(str(Recover(delivery, parse).e)))
    ensures Recover(delivery, parse).Parsed? ==> r == CallResult(Recover(delivery, parse).data, None)
    ensures Recover(delivery, parse) == NoChoices ==> r == CallResult(JNull, Some(NoChoicesText))
    ensures Recover(delivery, parse) == InvalidJson ==> r == CallResult(JNull, Some(InvalidJsonText))
  {
    match Recover(delivery, parse)
    case Parsed(data) => CallResult(data, None)
    case NoChoices => CallResult(JNull, Some(NoChoicesText))
    case InvalidJson => CallResult(JNull, Some(InvalidJsonText))
    case Raised(e) => CallResult(JNull, Some(str(e)))
  }

  // ---------------------------------------------------------------------
  // The outcomes of call_gemini, case by case

  /** A reply without a truthy `choices` list gives the fixed message, and no
      parse is attempted: the result is the same for every `parse`. */
  lemma NoChoicesReply(result: Json, parse: string -> Option<Json>, str: Exc -> string)
    requires result.JObject? && !Truthy(Get(result.fields, "choices", JNull))
    ensures CallGemini(Delivered(result), parse, str) == CallResult(JNull, Some(NoChoicesText))
  {
  }

  /** A request or `resp.json()` that raises is reported as that exception's
      text, with no data. */
  lemma TransportFailureReported(detail: string, parse: string -> Option<Json>, str: Exc -> string)
    ensures CallGemini(TransportFailed(detail), parse, str) == CallResult(JNull, Some(str(TransportError(detail))))
  {
  }

  /** A first message whose `content` is present but not a string (a
      number, a list, `null`, ...) makes `json.loads` raise a type error,
      which is reported as its text, with no data. */
  lemma NonStringContentRaises(result: Json, parse: string -> Option<Json>, str: Exc -> string)
    requires result.JObject? && "choices" in result.fields
    requires result.fields["choices"].JArray? && |result.fields["choices"].items| > 0
    requires var first := result.fields["choices"].items[0];
             first.JObject? && "message" in first.fields && first.fields["message"].JObject?
             && "content" in first.fields["message"].fields
             && !first.fields["message"].fields["content"].JString?
    ensures CallGemini(Delivered(result), parse, str) == CallResult(JNull, Some(str(TypeFault)))
  {
  }

  /** When the content parses strictly, its value is returned with no error
      and the brace fallback is never consulted. */
  lemma StrictParseWins(result: Json, text: string, parse: string -> Option<Json>, str: Exc -> string)
    requires FirstContentIs(result, text) && parse(text).Some?
    ensures CallGemini(Delivered(result), parse, str) == CallResult(parse(text).value, None)
  {
  }

  /** When the strict parse fails: without a brace match the result is the
      fixed "invalid JSON" message; with one, the match's value if it
      parses, and otherwise the text of the decode error, which escapes to
      the outer handler instead of giving the fixed message. */
  lemma FallbackOutcomes(result: Json, text: string, parse: string -> Option<Json>, str: Exc -> string)
    requires FirstContentIs(result, text) && parse(text).None?
    ensures (forall i, j :: !BracePatternMatches(text, i, j)) ==>
              CallGemini(Delivered(result), parse, str) == CallResult(JNull, Some(InvalidJsonText))
    ensures forall m :: BraceMatch(text) == Some(m) && parse(m).Some? ==>
              CallGemini(Delivered(result), parse, str) == CallResult(parse(m).value, None)
    ensures forall m :: BraceMatch(text) == Some(m) && parse(m).None? ==>
              CallGemini(Delivered(result), parse, str) == CallResult(JNull, Some(str(DecodeError(m))))
  {
  }

  /** The data returned without an error is never made up: it is what
      `parse` gave for the first choice's content, or for a brace-delimited
      span of it. */
  lemma NeverFabricates(delivery: Delivery, parse: string -> Option<Json>, str: Exc -> string)
    ensures var r := CallGemini(delivery, parse, str);
            r.error.None? ==>
              && delivery.Delivered?
              && exists text :: FirstContentIs(delivery.body, text)
                   && (|| parse(text) == Some(r.data)
                       || exists i, j :: BracePatternMatches(text, i, j) && parse(text[i..j]) == Some(r.data))
  {
  }
}

=== FILE: strings.dfy ===
/** Facts about slicing concatenated strings, shared by the prompt and the
    error page. They are stated over arbitrary strings so that the solver
    never unfolds the long literal pieces of the prompt to use them. */
module Strings {

  /** `p` holds `s` verbatim from offset `o` on. */
  predicate Shows(p: string, o: int, s: string)
  {
    0 <= o && o + |s| <= |p| && p[o .. o + |s|] == s
  }

  /** The middle part of a three-way concatenation sits right after the first. */
  lemma ShowsMiddle(a: string, b: string, c: string)
    ensures Shows(a + b + c, |a|, b)
  {
    assert (a + b + c)[|a| .. |a| + |b|] == b;
  }

  /** Holding `a + b` at `o` is holding `a` there and `b` right after it. */
  lemma ShowsConcat(p: string, o: int, a: string, b: string)
    requires Shows(p, o, a + b)
    ensures Shows(p, o, a) && Shows(p, o + |a|, b)
  {
    assert p[o .. o + |a|] == (a + b)[..|a|];
    assert p[o + |a| .. o + |a| + |b|] == (a + b)[|a|..];
  }

  /** A string does not hold `a` where its character differs from `a`'s first. */
  lemma NotShowsAt(p: string, o: int, a: string)
    requires 0 <= o < |p| && |a| > 0 && p[o] != a[0]
    ensures !Shows(p, o, a)
  {
    if o + |a| <= |p| {
      assert p[o .. o + |a|][0] == p[o];
    }
  }

  /** The second part of a concatenation is its suffix after the first. */
  lemma SuffixOfConcat(a: string, b: string)
    ensures (a + b)[|a| ..] == b
  {
  }

  /** Moving the head of a concatenation into its first part. */
  lemma Regroup(x: string, a: string, l: string, b: string)
    ensures x + (a + l + b) == (x + a) + l + b
  {
  }
}

=== FILE: wrappers.dfy ===
/** The optional value used throughout the model for Python's `None`-or-value. */
module Wrappers {

  datatype Option<+T> = None | Some(value: T)
}
